=== FILE: README.md ===
# Anki search-to-SQL compiler, modelled in Dafny

This project models the core of Anki's search compiler, `rslib/src/search/searcher.rs`.
The compiler takes a parsed search, a tree of `Node`s: `And`, `Or`, `Not`, `Group` and
`Search` leaves. It walks the tree left to right and produces the SQL `where` text
together with the list of bound arguments, or an error: one that storage reports, or
`invalid current deck`.

The model is functional. The compiler's `SearchContext` becomes an immutable value
holding the SQL written so far and the arguments bound so far. The tree walker returns
the extended context or an error; each leaf writer returns the fragment it appends
(its SQL text and arguments), or an error. The context's storage handle is replaced by
a `Storage` record whose four lookups are given as values that may hold an error:

- `timing_today`
- `all_decks`
- `all_config`
- `all_note_types`

The helpers defined outside this file are parameters of `Catalog.Env`:

- `matches_wildcard`
- `child_ids`
- `strip_html_preserving_image_filenames`
- `field_checksum`

Modules:

- `Results`: `Option`, `Result` and the error kinds.
- `Text`: Rust's decimal `Display` for integers, `replace`, ASCII case-insensitive
  equality, `join`, and a splitter used to state round trips.
- `IdList`: `ids_to_string`.
- `SearchTypes`: the parser's `Node`, `SearchNode`, `TemplateKind`, `PropertyKind` and
  `StateKind`.
- `Catalog`: decks, note types, timing, config, card queues and the environment.
- `Context`: the output buffer. `Then` appends; `Delta` is what a step appended.
- `Leaves`: one writer per leaf kind. Each returns the `Fragment` it appends, meaning its
  SQL text and its bound arguments. `LeafFragment` is `write_search_node_to_sql`'s
  dispatch, and `WriteSearchNode` appends the fragment to a context.
- `LeafFacts`: properties of the leaf writers.
- `Searcher`: `write_node_to_sql` and `node_to_sql`.
  - `Walk` is the tree walker, written over an arbitrary leaf writer.
  - `WriteNode` is `Walk` with the real leaf writer.
  - The shape lemmas hold for any leaf writer that only appends and sees only the
    number of bound arguments. `LeafContract` proves that the real one qualifies.
  - `NodeToSqlFragment` and `SearchFragment` tie the shape lemmas to `node_to_sql`.

The model reproduces the source's output exactly, including these quirks:

- Template branches are joined with `","`.
- Single-field branches are concatenated with no separator.
- The duplicate clause leaves its parenthesis open.
- The rated clause writes `and ease=` with no space before it.
- `ids_to_string` moves the first id to the end.
- `added:N` writes `c.id > N`: the card id is compared with N itself.
- Note-id and card-id lists (`NoteIds`, `CardIds`) are inserted into the SQL text as
  given, not bound as arguments (see `LeafFacts.InlineLeaves`).
- The `is:due` clause is an unparenthesised `A or B`. Inside a group such as
  `Group([x, And, State(Due)])` it is written as `(x and A or B)`, which SQL reads as
  `(x and A) or B` (see `LeafFacts.StateLeaf` and `Searcher.BinaryGroup`).

Two consequences of the code are worth stating plainly:

- **Tag argument.** The tag argument is `" %" + tag.replace('*', "%") + "% "`, and the
  model binds the same text (see `LeafFacts.TagPattern`).
- **Placeholders versus arguments.** A single-field search binds its value once, and
  every alternative refers to it as `?N`, where N is the argument count after the push.
  So the `?` placeholders can outnumber the arguments (see `LeafFacts.SingleFieldLeaf`).

## Model

| member | source | states |
|---|---|---|
| IdList.IdsToString | rslib/src/search/searcher.rs:307-319 | the output is always parenthesised, and it is exactly `()` iff the list is empty |
| IdList.IdsToStringIsRotatedJoin | rslib/src/search/searcher.rs:307-319 | the output is `(`, then the ids with the first moved to the end, comma-separated, then `)` |
| IdList.IdsRoundTrip | rslib/src/search/searcher.rs:307-319 | reading the output back gives the rotated id list, so nothing is lost or reordered beyond the rotation |
| IdList.IdsEachOnce | rslib/src/search/searcher.rs:307-319 | every input id appears in the output exactly as often as in the input |
| IdList.IdsFixtures | rslib/src/search/searcher.rs:326-339 | the unit test's cases: `[]`, `[7]`, `[7,6]` and `[7,6,5]` give `()`, `(7)`, `(6,7)` and `(6,5,7)` |
| Searcher.AddedFixture | rslib/src/search/searcher.rs:357 | the expectation beside the source's tests: `added:1`, taken as a group around one leaf, compiles to `("(c.id > 1)", [])`; the parser is not part of this model, and the expected parentheses show the group |
| Text.IntToStringRoundTrip | rslib/src/search/searcher.rs:116-119 | the decimal rendering used for every number in the SQL reads back as the same integer |
| Text.IntToStringInjective | rslib/src/search/searcher.rs:307-319 | distinct ids render differently |
| Searcher.NodeToSql | rslib/src/search/searcher.rs:25-34 | `node_to_sql` itself: writes into an empty context and returns its text and arguments; its behaviour is stated by `Searcher.NodeToSqlAnywhere` and `Searcher.NodeToSqlFragment` |
| Searcher.Walk | rslib/src/search/searcher.rs:36-54 | `write_node_to_sql` over any leaf writer; its behaviour is stated by `Searcher.WalkAppends`, `Searcher.Locality`, `Searcher.NotFragment`, `Searcher.ConnectorFragment` and `Searcher.GroupFragment` |
| Searcher.WalkAll | rslib/src/search/searcher.rs:46-48 | the loop over a group's children; its behaviour is stated by `Searcher.NodesSplice` |
| Leaves.LeafFragment | rslib/src/search/searcher.rs:56-87 | the dispatch of `write_search_node_to_sql`; the exact text of the arms written without a lookup (unqualified text, `added`, template ordinal, note type id, flag, note ids, card ids) is stated by `LeafFacts.InlineLeaves`, which leaves bind which arguments by `LeafFacts.LeafArgs`, and which lookups can fail by `LeafFacts.StorageFailures` |
| Leaves.WriteUnqualified | rslib/src/search/searcher.rs:89-99 | `write_unqualified`; its exact text `(n.sfld like ? escape '\' or n.flds like ? escape '\')` and its two `%text%` arguments are stated by `LeafFacts.InlineLeaves` and `LeafFacts.LeafArgs` |
| Leaves.WriteTag | rslib/src/search/searcher.rs:101-110 | `write_tag`; its output is stated by `LeafFacts.TagPattern` |
| Leaves.WriteRated | rslib/src/search/searcher.rs:112-129 | `write_rated`; its output is stated by `Leaves.RatedCutoff`, `LeafFacts.RatedClamp` and `LeafFacts.RatedClause` |
| Leaves.WriteProp | rslib/src/search/searcher.rs:131-152 | `write_prop`; its output is stated by `LeafFacts.PropLeaf` |
| Leaves.WriteState | rslib/src/search/searcher.rs:154-186 | `write_state`; its output is stated by `LeafFacts.StateLeaf` and `LeafFacts.QueueNumbers` |
| Leaves.WriteDeck | rslib/src/search/searcher.rs:188-219 | `write_deck`; its output is stated by `LeafFacts.DeckSentinels`, `LeafFacts.CurrentDeck` and `LeafFacts.DeckPattern` |
| Leaves.WriteTemplate | rslib/src/search/searcher.rs:221-245 | `write_template`; an ordinal writes `c.ord = n` (`LeafFacts.InlineLeaves`), and a name is stated by `LeafFacts.TemplateByName` and `LeafFacts.TemplateBranchesExact` |
| Leaves.WriteNoteType | rslib/src/search/searcher.rs:247-259 | `write_note_type`; its output is stated by `LeafFacts.NoteTypeLeaf` |
| Leaves.WriteSingleField | rslib/src/search/searcher.rs:261-292 | `write_single_field`; its output is stated by `LeafFacts.SingleFieldLeaf` and `LeafFacts.FieldBranchesExact` |
| Leaves.WriteDupes | rslib/src/search/searcher.rs:294-304 | `write_dupes`; its exact text (note type id, checksum of the stripped text, unclosed `= ?`) and bound argument are stated by `LeafFacts.DupesLeaf` |
| Searcher.WriteNode | rslib/src/search/searcher.rs:36-54 | compilation only appends: the SQL and arguments before a node are prefixes of those after it |
| Searcher.WalkAppends | rslib/src/search/searcher.rs:36-54 | the same append-only property, for any leaf writer that only appends |
| Searcher.LeafContract | rslib/src/search/searcher.rs:56-87 | the real leaf writer only appends, and what it appends depends only on the number of bound arguments |
| Searcher.Locality | rslib/src/search/searcher.rs:36-54 | what a node appends depends on the context only through its argument count; earlier text is never read |
| Searcher.Splice | rslib/src/search/searcher.rs:36-54 | writing a node into any context appends exactly its fragment at that argument count |
| Searcher.NodeToSqlAnywhere | rslib/src/search/searcher.rs:25-34 | `node_to_sql` fails iff writing into any argument-free context fails, and otherwise returns exactly what is appended there |
| Searcher.NodeToSqlFragment | rslib/src/search/searcher.rs:25-34 | `node_to_sql` returns the tree's fragment at argument count 0, or its error |
| Searcher.SearchFragment | rslib/src/search/searcher.rs:51 | a `Search` node appends exactly its leaf writer's fragment |
| Searcher.NodesSplice | rslib/src/search/searcher.rs:44-48 | a group's children are written in order, each after the arguments of those before it, and the first failure ends the loop |
| Searcher.GroupFragment | rslib/src/search/searcher.rs:44-49 | `Group(children)` writes `(`, the children's text in order, then `)`, and binds the children's arguments in order |
| Searcher.NotFragment | rslib/src/search/searcher.rs:40-43 | `Not(x)` writes `not ` and then exactly what `x` writes, with no added parentheses |
| Searcher.ConnectorFragment | rslib/src/search/searcher.rs:38-39 | `And` and `Or` write exactly ` and ` and ` or `, and bind nothing |
| Searcher.BinaryGroup | rslib/src/search/searcher.rs:38-49 | `Group([a, And, b])` is `(` + a + ` and ` + b + `)` (likewise `Or`), b's arguments follow a's, and an error in a or b is the result |
| Leaves.WriteSearchNode | rslib/src/search/searcher.rs:56-87 | a leaf appends exactly its fragment at the current argument count, or fails leaving nothing written |
| LeafFacts.LeafArgs | rslib/src/search/searcher.rs:56-110 | only unqualified text, a matching single field, a tag other than `none` and dupes bind arguments; it states which arguments each binds, e.g. two copies of `%text%` for unqualified text |
| LeafFacts.InlineLeaves | rslib/src/search/searcher.rs:57-84 | the exact text and arguments of every leaf written without a lookup: unqualified text, `added:N` as `c.id > N`, a template ordinal as `c.ord = n`, a note type id as `n.mid = id`, a flag as `(c.flags & 7) == n`, and note and card id lists inserted verbatim into `n.id in (…)` and `c.id in (…)` |
| LeafFacts.TagPattern | rslib/src/search/searcher.rs:101-110 | `none` gives `n.tags = ''` with no argument; any other tag binds one argument: the tag between ` %` and `% `, with `*` turned into `%` |
| Leaves.RatedCutoff | rslib/src/search/searcher.rs:113-115 | the cutoff lies `min(days, 31)` days before the next day boundary |
| LeafFacts.RatedClamp | rslib/src/search/searcher.rs:112-129 | `rated:N` with N ≥ 31 writes exactly what `rated:31` writes |
| LeafFacts.RatedClause | rslib/src/search/searcher.rs:112-129 | the rated clause binds nothing, and the ease filter follows the cutoff with no space (`and ease=`) |
| LeafFacts.PropLeaf | rslib/src/search/searcher.rs:131-152 | a property search binds nothing and compares its column with the value; a `due` offset becomes `days + days_elapsed` |
| LeafFacts.StateLeaf | rslib/src/search/searcher.rs:154-186 | each state tests its queues (`=` for one, `in (a,b)` for two); `due` compares review cards with today and learning cards with the next day boundary |
| LeafFacts.QueueNumbers | rslib/src/search/searcher.rs:154-186 | queue numbers are written as the discriminant cast to `u8`: 0, 1, 2 and 3, with suspended and buried as 255, 254 and 253 |
| LeafFacts.DeckSentinels | rslib/src/search/searcher.rs:189-191 | `deck:*` gives `true` and `deck:filtered` gives `c.odid > 0`, whatever storage holds |
| Leaves.CurrentDeckIds | rslib/src/search/searcher.rs:194-203 | a config error is passed on; the result is an invalid-input error iff the current deck id is not in the deck list; otherwise it is that id followed by its children |
| LeafFacts.CurrentDeck | rslib/src/search/searcher.rs:188-219 | `deck:current` fails with `invalid current deck` iff the current id is absent, and otherwise writes `c.did in` the current deck and its children |
| Leaves.MatchingDeckIds | rslib/src/search/searcher.rs:204-212 | an id is listed iff it belongs to a deck whose name matches, or to a child of one |
| LeafFacts.DeckPattern | rslib/src/search/searcher.rs:188-219 | any other deck pattern writes `c.did in` a list holding exactly the matching decks and their children |
| Leaves.TemplateMatches | rslib/src/search/searcher.rs:228-235 | a pair is collected iff it is the `(note type id, ord)` of a template whose name matches |
| LeafFacts.NoTemplateMatch | rslib/src/search/searcher.rs:228-237 | nothing is collected iff no template of any note type matches |
| LeafFacts.TemplateByName | rslib/src/search/searcher.rs:221-245 | no match gives `false`; otherwise it writes `(` + comma-joined branches + `)`, where each branch names a matching template and every matching template has a branch; it binds nothing |
| LeafFacts.TemplateBranchesExact | rslib/src/search/searcher.rs:228-243 | the branches are exactly those of the matching templates: each branch is `(n.mid = id and c.ord = ord)` for one, and each one has a branch |
| Leaves.NoteTypeIds | rslib/src/search/searcher.rs:247-255 | an id is listed iff its note type's name matches, and there are at most as many ids as note types |
| LeafFacts.NoteTypeLeaf | rslib/src/search/searcher.rs:247-259 | `note:` writes `n.mid in` a list holding exactly the ids of the matching note types |
| Leaves.FieldMap | rslib/src/search/searcher.rs:264-271 | a pair is collected iff it is the `(note type id, ord)` of a field whose name equals the requested one, ignoring ASCII case |
| LeafFacts.NoFieldMatch | rslib/src/search/searcher.rs:264-276 | nothing is collected iff no field of any note type has the name |
| Leaves.FieldBranch | rslib/src/search/searcher.rs:281-287 | every single-field branch ends with `?N)`, N being the argument number it was given |
| LeafFacts.SingleFieldLeaf | rslib/src/search/searcher.rs:261-292 | no field match gives `false` with no argument; otherwise it binds the value once, writes the branches with no separator inside `(`…`)`, every branch refers to `?N` with N the argument count after the push, each branch tests the `(note type id, field ord)` of a field with the requested name, and every such field has a branch |
| LeafFacts.FieldBranchesExact | rslib/src/search/searcher.rs:264-289 | the branches are exactly those of the fields with the requested name: each branch tests one such field against `?N`, and each one has a branch |
| LeafFacts.DupesLeaf | rslib/src/search/searcher.rs:294-304 | dupes writes `(n.mid = ntid and n.csum = checksum of the stripped text and field_at_index(n.flds, 0) = ?` with no closing parenthesis, binds the raw text, and texts that strip to the same plain text give the same SQL |
| LeafFacts.StorageFailures | rslib/src/search/searcher.rs:56-87 | a timing error aborts rated, state and property searches; a note-type error aborts single-field, note-type and template-name searches; a deck error aborts deck searches other than the sentinels; no other leaf can fail |
| Catalog.QueueAsU8 | rslib/src/search/searcher.rs:139-140 | `as u8` keeps a non-negative discriminant and adds 256 to a negative one |
| Catalog.GetDeck | rslib/src/search/searcher.rs:197-198 | a deck is found iff some deck has the id, and the deck found has that id |

## Left out

- The request context and its storage handle are replaced by the `Storage` values described above. Storage is not modelled beyond what the searcher reads from it.
- `rusqlite::ToSqlOutput` is modelled as strings. Every argument the searcher binds is a string.
- `matches_wildcard`, `child_ids`, `strip_html_preserving_image_filenames` and `field_checksum` are parameters of `Catalog.Env`. Their code is not part of this model.
- `get_deck` is modelled as the first deck in the list with the given id. Its code is not part of this model.
- `card.rs` is not part of this model. The queue discriminants used are:
  - New 0, Learn 1, Review 2, DayLearn 3;
  - Suspended -1, SchedBuried -2, UserBuried -3.
- Note types come from a map whose iteration order the searcher does not choose. The model takes them as a sequence in the order given, so it does not model that order.
- `PropertyKind::Ease` holds a float that the source scales with `(ease * 1000.0) as u32`. The model takes the already scaled integer instead, because floating point is not modelled.
- Leaves.WriteProp: computes the `due` value `days + days_elapsed as i32` on unbounded integers, so it does not wrap or panic on 32-bit overflow where the source does (see the next line).
- LeafFacts.PropLeaf: the `due` value `days + days_elapsed as i32` is computed on unbounded integers. It does not model 32-bit overflow or the `u32`-to-`i32` cast. The overflow is reachable: the offset is typed by the user (`prop:due=2147483647`), so an offset near `i32::MAX` plus any real `days_elapsed` overflows. There the model returns the unbounded sum, while the source panics or wraps, depending on how it is built.
- Leaves.WriteRated: computes the cutoff `next_day_at - 86400 * min(days, 31)` (through `Leaves.RatedCutoff`) on unbounded integers, so it does not model 64-bit overflow (see the next line).
- LeafFacts.RatedClause: the cutoff `next_day_at - 86400 * days` is computed on unbounded integers. It does not model 64-bit overflow, which needs timestamps near the `i64` limit.
- The parser's guarantee that connectors alternate with operands is not assumed. The walker writes whatever sequence it is given, and the model does the same.
- A failed search leaves partial text in the source's buffer. That buffer is then dropped, so the model returns only the error.

=== FILE: catalog.dfy ===
/** What the compiler reads from the collection: the scheduling clock, the deck
    list, the configuration and the note-type catalog, plus the text routines
    it calls whose definitions lie outside the searcher. */
module Catalog {
  import opened Results
  import opened SearchTypes

  datatype Deck = Deck(id: ObjId, name: string)

  /** A field or a card template of a note type: its name and its ordinal. */
  datatype NamedOrd = NamedOrd(name: string, ord: nat)

  datatype NoteType = NoteType(id: ObjId, name: string, fields: seq<NamedOrd>, templates: seq<NamedOrd>)

  /** `timing_today()`: days since the collection was created, and the
      timestamp at which the next day starts. */
  datatype Timing = Timing(daysElapsed: U32, nextDayAt: I64)

  datatype Config = Config(currentDeckId: ObjId)

  /** One read-only snapshot of storage. Each lookup either yields its value or
      the error storage reports; the note types come in the order in which the
      source's map hands them out. */
  datatype Storage = Storage(
    timingToday: Result<Timing>,
    allDecks: Result<seq<Deck>>,
    allConfig: Result<Config>,
    allNoteTypes: Result<seq<NoteType>>)

  /** The request context: storage and the collaborators the searcher calls. */
  datatype Env = Env(
    storage: Storage,
    matchesWildcard: (string, string) -> bool,
    childIds: (seq<Deck>, string) -> seq<ObjId>,
    stripHtmlPreservingImageFilenames: string -> string,
    fieldChecksum: string -> U32)

  /** Card queues, with the discriminants of the scheduler's queue numbering. */
  datatype CardQueue = New | Learn | Review | DayLearn | Suspended | SchedBuried | UserBuried

  function Discriminant(q: CardQueue): int {
    match q
    case New => 0
    case Learn => 1
    case Review => 2
    case DayLearn => 3
    case Suspended => -1
    case SchedBuried => -2
    case UserBuried => -3
  }

  /** `queue as u8`: the `i8` discriminant reinterpreted as an unsigned byte. */
  function QueueAsU8(q: CardQueue): (b: U8)
    ensures Discriminant(q) >= 0 ==> b == Discriminant(q)
    ensures Discriminant(q) < 0 ==> b == Discriminant(q) + 256
  {
    Discriminant(q) % 256
  }

  /** `get_deck`: the first deck in the list with the given id. */
  function GetDeck(decks: seq<Deck>, id: ObjId): (r: Option<Deck>)
    ensures r.Some? <==> exists i :: 0 <= i < |decks| && decks[i].id == id
    ensures r.Some? ==> r.value in decks && r.value.id == id
  {
    if |decks| == 0 then None
    else if decks[0].id == id then Some(decks[0])
    else GetDeck(decks[1..], id)
  }
}

=== FILE: context.dfy ===
/** The compiler's output buffer (`SearchContext` without its request handle):
    the SQL text written so far and the arguments bound so far. */
module Context {
  import opened Results

  datatype SearchContext = SearchContext(sql: string, args: seq<string>) {

    /** Appends `text` to the SQL and pushes `pushed` onto the arguments. */
    function Then(text: string, pushed: seq<string>): (r: SearchContext)
      ensures Extends(this, r)
      ensures r.sql[|sql|..] == text && r.args[|args|..] == pushed
      ensures |r.args| == |args| + |pushed|
    {
      SearchContext(sql + text, args + pushed)
    }
  }

  /** What one node contributes: the text it appends and the arguments it pushes. */
  datatype Fragment = Fragment(sql: string, args: seq<string>)

  /** `after` was obtained from `before` by appending only. */
  predicate Extends(before: SearchContext, after: SearchContext) {
    before.sql <= after.sql && before.args <= after.args
  }

  /** The part of `after` that was appended to `before`, or the error. */
  function Delta(before: SearchContext, after: Result<SearchContext>): Result<Fragment> {
    match after
    case Err(e) => Err(e)
    case Ok(c) =>
      if Extends(before, c) then Ok(Fragment(c.sql[|before.sql|..], c.args[|before.args|..]))
      else Ok(Fragment("", []))
  }

  /** A context with no SQL and `base` placeholder arguments: what a node sees
      when it is written after `base` arguments have been bound. */
  function Blank(base: nat): (c: SearchContext)
    ensures c.sql == "" && |c.args| == base
  {
    SearchContext("", seq(base, _ => ""))
  }

  /** Appending in two steps appends the concatenation of the two parts. */
  lemma DeltaChain(a: SearchContext, b: SearchContext, r: Result<SearchContext>)
    requires Extends(a, b)
    requires r.Ok? ==> Extends(b, r.value)
    ensures Delta(a, r) == match Delta(b, r)
      case Err(e) => Err(e)
      case Ok(f) => Ok(Fragment(b.sql[|a.sql|..] + f.sql, b.args[|a.args|..] + f.args))
  {
    if r.Ok? {
      var c := r.value;
      assert c.sql[|a.sql|..] == b.sql[|a.sql|..] + c.sql[|b.sql|..];
      assert c.args[|a.args|..] == b.args[|a.args|..] + c.args[|b.args|..];
    }
  }

  /** Appending `text` and `pushed` to a context appends exactly that fragment. */
  lemma AppendDelta(c: SearchContext, text: string, pushed: seq<string>)
    ensures Delta(c, Ok(SearchContext(c.sql + text, c.args + pushed))) == Ok(Fragment(text, pushed))
  {
    assert (c.sql + text)[|c.sql|..] == text;
    assert (c.args + pushed)[|c.args|..] == pushed;
  }

  /** A context rebuilt from what was there before and what was appended. */
  lemma Reassemble(before: SearchContext, after: SearchContext)
    requires Extends(before, after)
    ensures Delta(before, Ok(after)).Ok?
    ensures after == SearchContext(before.sql + Delta(before, Ok(after)).value.sql,
                                   before.args + Delta(before, Ok(after)).value.args)
  {
    assert after.sql == before.sql + after.sql[|before.sql|..];
    assert after.args == before.args + after.args[|before.args|..];
  }
}

=== FILE: ids.dfy ===
/** `ids_to_string`: renders a list of ids as the tuple text of an SQL `in` clause.
    The source writes every id after the first, each followed by a comma, and
    then the first id, so the first id ends up last. */
module IdList {
  import opened Results
  import opened Text

  /** Each id followed by a comma: the loop over `ids.iter().skip(1)`. */
  function Trailing(ids: seq<int>): string {
    if |ids| == 0 then "" else IntToString(ids[0]) + "," + Trailing(ids[1..])
  }

  function IdsToString(ids: seq<int>): (r: string)
    ensures |r| >= 2 && r[0] == '(' && r[|r| - 1] == ')'
    ensures r == "()" <==> |ids| == 0
  {
    "(" + (if |ids| == 0 then "" else Trailing(ids[1..]) + IntToString(ids[0])) + ")"
  }

  /** The order in which the ids come out: all but the first, then the first. */
  function Rotate<T>(xs: seq<T>): seq<T> {
    if |xs| == 0 then [] else xs[1..] + [xs[0]]
  }

  function Render(ids: seq<int>): (r: seq<string>)
    ensures |r| == |ids|
    ensures forall i :: 0 <= i < |ids| ==> r[i] == IntToString(ids[i])
  {
    if |ids| == 0 then [] else [IntToString(ids[0])] + Render(ids[1..])
  }

  /** Reads an `in` tuple back: strips the parentheses, splits on commas and
      parses each piece; `None` if any piece is not an integer. */
  function ParseIds(s: string): Option<seq<int>> {
    if |s| < 2 || s[0] != '(' || s[|s| - 1] != ')' then None
    else if |s| == 2 then Some([])
    else ParseEach(Split(s[1..|s| - 1], ','))
  }

  function ParseEach(pieces: seq<string>): Option<seq<int>> {
    if |pieces| == 0 then Some([])
    else
      match (ParseInt(pieces[0]), ParseEach(pieces[1..]))
      case (Some(v), Some(vs)) => Some([v] + vs)
      case _ => None
  }

  lemma {:induction false} TrailingAsJoin(ids: seq<int>, last: int)
    ensures Trailing(ids) + IntToString(last) == Join(Render(ids + [last]), ",")
    decreases |ids|
  {
    if |ids| == 0 {
      assert Render([last]) == [IntToString(last)];
    } else {
      TrailingAsJoin(ids[1..], last);
      assert (ids + [last])[1..] == ids[1..] + [last];
      assert Render(ids + [last])[1..] == Render(ids[1..] + [last]);
    }
  }

  /** Reference definition: the ids of `Rotate(ids)`, joined by commas, in parentheses. */
  lemma IdsToStringIsRotatedJoin(ids: seq<int>)
    ensures IdsToString(ids) == "(" + Join(Render(Rotate(ids)), ",") + ")"
  {
    if |ids| > 0 {
      TrailingAsJoin(ids[1..], ids[0]);
    }
  }

  lemma {:induction false} ParseEachRender(ids: seq<int>)
    ensures ParseEach(Render(ids)) == Some(ids)
  {
    if |ids| > 0 {
      IntToStringRoundTrip(ids[0]);
      ParseEachRender(ids[1..]);
      assert Render(ids)[1..] == Render(ids[1..]);
      assert [ids[0]] + ids[1..] == ids;
    }
  }

  /** Round trip: reading the rendered tuple gives back exactly the ids, in rotated order. */
  lemma IdsRoundTrip(ids: seq<int>)
    ensures ParseIds(IdsToString(ids)) == Some(Rotate(ids))
  {
    if |ids| > 0 {
      var s := IdsToString(ids);
      var parts := Render(Rotate(ids));
      IdsToStringIsRotatedJoin(ids);
      assert s[1..|s| - 1] == Join(parts, ",");
      forall i | 0 <= i < |parts|
        ensures ',' !in parts[i]
      {
        assert parts[i] == IntToString(Rotate(ids)[i]);
      }
      SplitJoin(parts, ',');
      ParseEachRender(Rotate(ids));
    }
  }

  /** Every input id appears in the output exactly as often as in the input. */
  lemma IdsEachOnce(ids: seq<int>)
    ensures ParseIds(IdsToString(ids)).Some?
    ensures multiset(ParseIds(IdsToString(ids)).value) == multiset(ids)
  {
    IdsRoundTrip(ids);
    if |ids| > 0 {
      assert ids == [ids[0]] + ids[1..];
    }
  }

  /** The expectations of the unit test `ids_string`. */
  lemma IdsFixtures()
    ensures IdsToString([]) == "()"
    ensures IdsToString([7]) == "(7)"
    ensures IdsToString([7, 6]) == "(6,7)"
    ensures IdsToString([7, 6, 5]) == "(6,5,7)"
  {
    assert IntToString(7) == "7";
    assert IntToString(6) == "6";
    assert IntToString(5) == "5";
    assert [7, 6][1..] == [6];
    assert [7, 6, 5][1..] == [6, 5];
  }
}

=== FILE: leaf_facts.dfy ===
/** Properties of the leaf writers: which leaves bind arguments, the sentinel,
    error and empty-match behaviour, and the text of the clauses that carry a
    quirk of their own. */
module LeafFacts {
  import opened Results
  import opened Text
  import opened IdList
  import opened SearchTypes
  import opened Context
  import opened Leaves
  import Catalog

  /** The leaf kinds that never bind an argument. */
  predicate NeverPushes(leaf: SearchNode) {
    !(leaf.UnqualifiedText? || leaf.SingleField? || leaf.Tag? || leaf.Duplicates?)
  }

  /** The leaves that do bind arguments, given what the catalog holds. */
  predicate PushesArgs(env: Catalog.Env, leaf: SearchNode) {
    || leaf.UnqualifiedText?
    || leaf.Duplicates?
    || (leaf.Tag? && leaf.tag != "none")
    || (leaf.SingleField? && env.storage.allNoteTypes.Ok?
        && |FieldMap(env.storage.allNoteTypes.value, leaf.field)| > 0)
  }

  /** The leaves written without any lookup, and their exact text. `added:N`
      compares the card id with N itself, and note and card id lists are
      spliced into the SQL as given, not bound as arguments. */
  lemma InlineLeaves(env: Catalog.Env, leaf: SearchNode, base: nat)
    ensures var r := LeafFragment(env, leaf, base);
      && (leaf.UnqualifiedText? ==>
            var wrapped := "%" + leaf.text + "%";
            r == Ok(Fragment("(n.sfld like ? escape '\\' or n.flds like ? escape '\\')", [wrapped, wrapped])))
      && (leaf.AddedInDays? ==> r == Ok(Fragment("c.id > " + IntToString(leaf.days), [])))
      && (leaf.CardTemplate? && leaf.template.Ordinal? ==> r == Ok(Fragment("c.ord = " + IntToString(leaf.template.n), [])))
      && (leaf.NoteTypeId? ==> r == Ok(Fragment("n.mid = " + IntToString(leaf.ntid), [])))
      && (leaf.Flag? ==> r == Ok(Fragment("(c.flags & 7) == " + IntToString(leaf.flag), [])))
      && (leaf.NoteIds? ==> r == Ok(Fragment("n.id in (" + leaf.nids + ")", [])))
      && (leaf.CardIds? ==> r == Ok(Fragment("c.id in (" + leaf.cids + ")", [])))
  {
  }

  /** Exactly which arguments each leaf binds. */
  lemma LeafArgs(env: Catalog.Env, leaf: SearchNode, base: nat)
    requires LeafFragment(env, leaf, base).Ok?
    ensures var pushed := LeafFragment(env, leaf, base).value.args;
      && (|pushed| > 0 <==> PushesArgs(env, leaf))
      && (NeverPushes(leaf) ==> pushed == [])
      && (leaf.UnqualifiedText? ==> pushed == ["%" + leaf.text + "%", "%" + leaf.text + "%"])
      && (leaf.SingleField? && |pushed| > 0 ==> pushed == [leaf.text])
      && (leaf.Tag? && leaf.tag != "none" ==> pushed == [" %" + ReplaceChar(leaf.tag, '*', '%') + "% "])
      && (leaf.Duplicates? ==> pushed == [leaf.text])
  {
  }

  /** The argument bound for a tag search: the tag between ` %` and `% `, with
      every `*` turned into `%` and every other character kept. */
  lemma TagPattern(tag: string)
    ensures tag == "none" ==> WriteTag(tag) == Fragment("n.tags = ''", [])
    ensures tag != "none" ==>
      var f := WriteTag(tag);
      && f.sql == "n.tags like ?"
      && |f.args| == 1
      && var a := f.args[0];
      && |a| == |tag| + 4 && a[..2] == " %" && a[|a| - 2..] == "% "
      && '*' !in a
      && forall i :: 0 <= i < |tag| ==> a[i + 2] == (if tag[i] == '*' then '%' else tag[i])
  {
    if tag != "none" {
      var a := WriteTag(tag).args[0];
      var mid := ReplaceChar(tag, '*', '%');
      assert a == " %" + mid + "% ";
      forall i | 0 <= i < |a|
        ensures a[i] != '*'
      {
        if 2 <= i < |a| - 2 {
          assert a[i] == mid[i - 2];
        }
      }
    }
  }

  /** `rated:N` with N beyond 31 behaves exactly as `rated:31`. */
  lemma RatedClamp(env: Catalog.Env, days: U32, ease: Option<U8>)
    requires days >= 31
    ensures WriteRated(env, days, ease) == WriteRated(env, 31, ease)
  {
    assert RatedCutoff(0, days) == RatedCutoff(0, 31);
  }

  /** The `rated` clause: a cutoff at most 31 days before the next day boundary,
      and with an ease filter, `and ease=` written straight after the cutoff. */
  lemma RatedClause(env: Catalog.Env, days: U32, ease: Option<U8>)
    requires env.storage.timingToday.Ok?
    ensures var next := env.storage.timingToday.value.nextDayAt;
      var r := WriteRated(env, days, ease);
      && r.Ok? && r.value.args == []
      && exists cutoff :: next - cutoff == 86_400 * Min(days, 31)
          && r.value.sql == "c.id in (select cid from revlog where id>" + IntToString(cutoff)
             + (if ease.Some? then "and ease=" + IntToString(ease.value) + ")" else ")")
  {
    var next := env.storage.timingToday.value.nextDayAt;
    var cutoff := RatedCutoff(next, days);
    assert next - cutoff == 86_400 * Min(days, 31);
  }

  /** The queues each non-`due` state tests, in the order they are written. */
  function QueuesOf(state: StateKind): seq<Catalog.CardQueue>
    requires !state.Due?
  {
    match state
    case New => [Catalog.New]
    case Review => [Catalog.Review]
    case Learning => [Catalog.Learn, Catalog.DayLearn]
    case Buried => [Catalog.SchedBuried, Catalog.UserBuried]
    case Suspended => [Catalog.Suspended]
  }

  /** The queue numbers as written: the discriminant cast to an unsigned byte,
      so the negative queues appear as 255, 254 and 253. */
  lemma QueueNumbers()
    ensures Queue(Catalog.New) == "0" && Queue(Catalog.Learn) == "1"
    ensures Queue(Catalog.Review) == "2" && Queue(Catalog.DayLearn) == "3"
    ensures Queue(Catalog.Suspended) == "255"
    ensures Queue(Catalog.SchedBuried) == "254" && Queue(Catalog.UserBuried) == "253"
  {
    assert NatToString(25) == "25";
  }

  /** A state search binds nothing; each state other than `due` tests
      `c.queue` against its queues (`=` for one, `in (..)` for two), and `due`
      compares review cards with today's day number and learning cards with the
      next day boundary. */
  lemma StateLeaf(env: Catalog.Env, state: StateKind)
    requires env.storage.timingToday.Ok?
    ensures var r := WriteState(env, state);
      var t := env.storage.timingToday.value;
      && r.Ok? && r.value.args == []
      && (!state.Due? ==>
            var qs := QueuesOf(state);
            r.value.sql == if |qs| == 1 then "c.queue = " + Queue(qs[0])
                           else "c.queue in (" + Queue(qs[0]) + "," + Queue(qs[1]) + ")")
      && (state.Due? ==>
            r.value.sql == "\n(c.queue in (" + Queue(Catalog.Review) + "," + Queue(Catalog.DayLearn)
              + ") and c.due <= " + IntToString(t.daysElapsed) + ") or\n(c.queue = " + Queue(Catalog.Learn)
              + " and c.due <= " + IntToString(t.nextDayAt) + ")")
  {
  }

  /** What a property search writes before its operator: the compared column. */
  function PropColumn(kind: PropertyKind): string {
    match kind
    case Due(_) => "(c.queue in (" + Queue(Catalog.Review) + "," + Queue(Catalog.DayLearn) + ") and due "
    case Interval(_) => "ivl "
    case Reps(_) => "reps "
    case Lapses(_) => "lapses "
    case Ease(_) => "ease "
  }

  /** The value a property search compares with: a `due` offset in days from
      today becomes an absolute day number; the others are taken as given. */
  function PropValue(kind: PropertyKind, daysElapsed: int): int {
    match kind
    case Due(days) => days + daysElapsed
    case Interval(ivl) => ivl
    case Reps(reps) => reps
    case Lapses(lapses) => lapses
    case Ease(milli) => milli
  }

  /** A property search binds nothing and writes `column op value`, the `due`
      form closing the parenthesis it opened. */
  lemma PropLeaf(env: Catalog.Env, op: string, kind: PropertyKind)
    requires env.storage.timingToday.Ok?
    ensures var v := IntToString(PropValue(kind, env.storage.timingToday.value.daysElapsed));
      WriteProp(env, op, kind) ==
        Ok(Fragment(if kind.Due? then PropColumn(kind) + op + " " + v + ")"
                    else PropColumn(kind) + op + " " + v, []))
  {
  }

  /** `deck:*` and `deck:filtered` need no lookup: they succeed whatever storage holds. */
  lemma DeckSentinels(env: Catalog.Env)
    ensures WriteDeck(env, "*") == Ok(Fragment("true", []))
    ensures WriteDeck(env, "filtered") == Ok(Fragment("c.odid > 0", []))
  {
  }

  /** `deck:current` fails with invalid input exactly when the configured
      current deck is not in the deck list; otherwise it lists that deck
      followed by its children. */
  lemma CurrentDeck(env: Catalog.Env)
    requires env.storage.allDecks.Ok? && env.storage.allConfig.Ok?
    ensures var decks := env.storage.allDecks.value;
      var current := env.storage.allConfig.value.currentDeckId;
      var r := WriteDeck(env, "current");
      && (r.Err? <==> forall i :: 0 <= i < |decks| ==> decks[i].id != current)
      && (r.Err? ==> r.error == InvalidInput("invalid current deck"))
      && (r.Ok? ==>
            exists i :: 0 <= i < |decks| && decks[i].id == current
              && r.value == Fragment("c.did in " + IdsToString([current] + env.childIds(decks, decks[i].name)), []))
  {
  }

  /** Any other deck pattern: `c.did in` the ids of the matching decks and of
      their children, and nothing else. */
  lemma DeckPattern(env: Catalog.Env, pattern: string)
    requires pattern != "*" && pattern != "filtered" && pattern != "current"
    requires env.storage.allDecks.Ok?
    ensures var decks := env.storage.allDecks.value;
      exists ids: seq<ObjId> ::
        && WriteDeck(env, pattern) == Ok(Fragment("c.did in " + IdsToString(ids), []))
        && forall id :: id in ids <==>
             exists i :: 0 <= i < |decks| && env.matchesWildcard(decks[i].name, pattern)
               && (id == decks[i].id || id in env.childIds(decks, decks[i].name))
  {
    var decks := env.storage.allDecks.value;
    var ids := MatchingDeckIds(env, decks, decks, pattern);
    assert WriteDeck(env, pattern) == Ok(Fragment("c.did in " + IdsToString(ids), []));
  }

  /** `note:` lists the ids of exactly the note types whose name matches. */
  lemma NoteTypeLeaf(env: Catalog.Env, pattern: string)
    requires env.storage.allNoteTypes.Ok?
    ensures var nts := env.storage.allNoteTypes.value;
      exists ids: seq<ObjId> ::
        && WriteNoteType(env, pattern) == Ok(Fragment("n.mid in " + IdsToString(ids), []))
        && |ids| <= |nts|
        && forall id :: id in ids <==>
             exists i :: 0 <= i < |nts| && env.matchesWildcard(nts[i].name, pattern) && nts[i].id == id
  {
    var ids := NoteTypeIds(env, env.storage.allNoteTypes.value, pattern);
    assert WriteNoteType(env, pattern) == Ok(Fragment("n.mid in " + IdsToString(ids), []));
  }

  /** No pair is collected exactly when no template name matches. */
  lemma NoTemplateMatch(env: Catalog.Env, nts: seq<Catalog.NoteType>, name: string)
    ensures |TemplateMatches(env, nts, name)| == 0 <==>
      forall i, j :: 0 <= i < |nts| && 0 <= j < |nts[i].templates| ==> !env.matchesWildcard(nts[i].templates[j].name, name)
  {
    var r := TemplateMatches(env, nts, name);
    if |r| > 0 {
      assert r[0] in r;
    } else {
      forall i, j | 0 <= i < |nts| && 0 <= j < |nts[i].templates|
        ensures env.matchesWildcard(nts[i].templates[j].name, name) ==> (nts[i].id, nts[i].templates[j].ord) in r
      {
      }
    }
  }

  /** No pair is collected exactly when no field has the name, ignoring ASCII case. */
  lemma NoFieldMatch(nts: seq<Catalog.NoteType>, field: string)
    ensures |FieldMap(nts, field)| == 0 <==>
      forall i, j :: 0 <= i < |nts| && 0 <= j < |nts[i].fields| ==> !EqIgnoreAsciiCase(nts[i].fields[j].name, field)
  {
    var r := FieldMap(nts, field);
    if |r| > 0 {
      assert r[0] in r;
    } else {
      forall i, j | 0 <= i < |nts| && 0 <= j < |nts[i].fields|
        ensures EqIgnoreAsciiCase(nts[i].fields[j].name, field) ==> (nts[i].id, nts[i].fields[j].ord) in r
      {
      }
    }
  }

  /** A template name that matches no template of any note type gives `false`;
      otherwise one `(n.mid = .. and c.ord = ..)` per matching template, joined by commas. */
  lemma TemplateByName(env: Catalog.Env, name: string)
    requires env.storage.allNoteTypes.Ok?
    ensures var nts := env.storage.allNoteTypes.value;
      var r := WriteTemplate(env, Name(name));
      var none := forall i, j :: 0 <= i < |nts| && 0 <= j < |nts[i].templates|
                    ==> !env.matchesWildcard(nts[i].templates[j].name, name);
      && r.Ok? && r.value.args == []
      && (none <==> r.value.sql == "false")
      && (!none ==> exists branches: seq<string> ::
            && |branches| > 0
            && r.value.sql == "(" + Join(branches, ",") + ")"
            && (forall k :: 0 <= k < |branches| ==> MatchingTemplateBranch(env, nts, name, branches[k]))
            && forall i, j :: 0 <= i < |nts| && 0 <= j < |nts[i].templates|
                 && env.matchesWildcard(nts[i].templates[j].name, name)
                 ==> TemplateBranch((nts[i].id, nts[i].templates[j].ord)) in branches)
  {
    var nts := env.storage.allNoteTypes.value;
    var idOrds := TemplateMatches(env, nts, name);
    NoTemplateMatch(env, nts, name);
    if |idOrds| > 0 {
      var branches := TemplateBranches(idOrds);
      assert WriteTemplate(env, Name(name)).value.sql == "(" + Join(branches, ",") + ")";
      TemplateBranchesExact(env, nts, name);
    }
  }

  /** `b` is the branch of some template whose name matches `name`. */
  predicate MatchingTemplateBranch(env: Catalog.Env, nts: seq<Catalog.NoteType>, name: string, b: string) {
    exists i, j :: 0 <= i < |nts| && 0 <= j < |nts[i].templates|
      && env.matchesWildcard(nts[i].templates[j].name, name)
      && b == TemplateBranch((nts[i].id, nts[i].templates[j].ord))
  }

  /** The template branches are exactly those of the matching templates:
      each names one, and each one has a branch. */
  lemma TemplateBranchesExact(env: Catalog.Env, nts: seq<Catalog.NoteType>, name: string)
    ensures var branches := TemplateBranches(TemplateMatches(env, nts, name));
      && (forall k :: 0 <= k < |branches| ==> MatchingTemplateBranch(env, nts, name, branches[k]))
      && forall i, j :: 0 <= i < |nts| && 0 <= j < |nts[i].templates|
           && env.matchesWildcard(nts[i].templates[j].name, name)
           ==> TemplateBranch((nts[i].id, nts[i].templates[j].ord)) in branches
  {
    var idOrds := TemplateMatches(env, nts, name);
    var branches := TemplateBranches(idOrds);
    forall k | 0 <= k < |branches|
      ensures MatchingTemplateBranch(env, nts, name, branches[k])
    {
      assert idOrds[k] in idOrds;
      var i, j :| 0 <= i < |nts| && 0 <= j < |nts[i].templates|
        && env.matchesWildcard(nts[i].templates[j].name, name) && idOrds[k] == (nts[i].id, nts[i].templates[j].ord);
      assert branches[k] == TemplateBranch((nts[i].id, nts[i].templates[j].ord));
    }
    forall i, j | 0 <= i < |nts| && 0 <= j < |nts[i].templates| && env.matchesWildcard(nts[i].templates[j].name, name)
      ensures TemplateBranch((nts[i].id, nts[i].templates[j].ord)) in branches
    {
      var p := (nts[i].id, nts[i].templates[j].ord);
      assert p in idOrds;
      var k :| 0 <= k < |idOrds| && idOrds[k] == p;
      assert branches[k] == TemplateBranch(p);
    }
  }

  /** A single-field search gives `false` and binds nothing exactly when no
      field of any note type has the requested name (ignoring ASCII case);
      otherwise it binds the value once, and every alternative refers to it as
      `?N`, N being the argument count after the push. */
  lemma SingleFieldLeaf(env: Catalog.Env, field: string, val: string, base: nat)
    requires env.storage.allNoteTypes.Ok?
    ensures var nts := env.storage.allNoteTypes.value;
      var r := WriteSingleField(env, field, val, base);
      var none := forall i, j :: 0 <= i < |nts| && 0 <= j < |nts[i].fields|
                    ==> !EqIgnoreAsciiCase(nts[i].fields[j].name, field);
      && r.Ok?
      && (none <==> r.value == Fragment("false", []))
      && (!none ==>
            && r.value.args == [val]
            && exists branches: seq<string> ::
                 && |branches| > 0
                 && r.value.sql == "(" + Concat(branches) + ")"
                 && ExactFieldBranches(nts, field, base + 1, branches))
  {
    var nts := env.storage.allNoteTypes.value;
    var fieldMap := FieldMap(nts, field);
    NoFieldMatch(nts, field);
    if |fieldMap| > 0 {
      var branches := FieldBranches(fieldMap, base + 1);
      assert WriteSingleField(env, field, val, base).value.sql == "(" + Concat(branches) + ")";
      FieldBranchesExact(nts, field, base + 1);
    }
  }

  /** `branches` are the alternatives of a single-field search for `field`
      bound as argument `argIdx`: each ends with `?argIdx)` and tests one field
      with that name, and every field with that name has one. */
  predicate ExactFieldBranches(nts: seq<Catalog.NoteType>, field: string, argIdx: nat, branches: seq<string>) {
    var reference := "?" + IntToString(argIdx) + ")";
    && (forall k :: 0 <= k < |branches| ==>
          |branches[k]| > |reference| && branches[k][|branches[k]| - |reference|..] == reference)
    && (forall k :: 0 <= k < |branches| ==> MatchingFieldBranch(nts, field, argIdx, branches[k]))
    && forall i, j :: 0 <= i < |nts| && 0 <= j < |nts[i].fields|
         && EqIgnoreAsciiCase(nts[i].fields[j].name, field)
         ==> FieldBranch((nts[i].id, nts[i].fields[j].ord), argIdx) in branches
  }

  /** `b` is the branch, referring to argument `argIdx`, of some field named `field` (ignoring ASCII case). */
  predicate MatchingFieldBranch(nts: seq<Catalog.NoteType>, field: string, argIdx: nat, b: string) {
    exists i, j :: 0 <= i < |nts| && 0 <= j < |nts[i].fields|
      && EqIgnoreAsciiCase(nts[i].fields[j].name, field)
      && b == FieldBranch((nts[i].id, nts[i].fields[j].ord), argIdx)
  }

  /** The single-field branches are exactly those of the fields with the
      requested name: each tests one, and each one has a branch. */
  lemma FieldBranchesExact(nts: seq<Catalog.NoteType>, field: string, argIdx: nat)
    ensures ExactFieldBranches(nts, field, argIdx, FieldBranches(FieldMap(nts, field), argIdx))
  {
    FieldBranchesEnd(FieldMap(nts, field), argIdx);
    FieldBranchesSound(nts, field, argIdx);
    FieldBranchesComplete(nts, field, argIdx);
  }

  /** Every single-field branch ends by referring to argument `argIdx`. */
  lemma FieldBranchesEnd(fieldMap: seq<(ObjId, nat)>, argIdx: nat)
    ensures var reference := "?" + IntToString(argIdx) + ")";
      var branches := FieldBranches(fieldMap, argIdx);
      forall k :: 0 <= k < |branches| ==>
        |branches[k]| > |reference| && branches[k][|branches[k]| - |reference|..] == reference
  {
    var branches := FieldBranches(fieldMap, argIdx);
    forall k | 0 <= k < |branches|
      ensures var reference := "?" + IntToString(argIdx) + ")";
        |branches[k]| > |reference| && branches[k][|branches[k]| - |reference|..] == reference
    {
      assert branches[k] == FieldBranch(fieldMap[k], argIdx);
    }
  }

  /** Each single-field branch tests a field with the requested name. */
  lemma FieldBranchesSound(nts: seq<Catalog.NoteType>, field: string, argIdx: nat)
    ensures var branches := FieldBranches(FieldMap(nts, field), argIdx);
      forall k :: 0 <= k < |branches| ==> MatchingFieldBranch(nts, field, argIdx, branches[k])
  {
    var fieldMap := FieldMap(nts, field);
    var branches := FieldBranches(fieldMap, argIdx);
    forall k | 0 <= k < |branches|
      ensures MatchingFieldBranch(nts, field, argIdx, branches[k])
    {
      assert fieldMap[k] in fieldMap;
      var i, j :| 0 <= i < |nts| && 0 <= j < |nts[i].fields|
        && EqIgnoreAsciiCase(nts[i].fields[j].name, field) && fieldMap[k] == (nts[i].id, nts[i].fields[j].ord);
      assert branches[k] == FieldBranch((nts[i].id, nts[i].fields[j].ord), argIdx);
    }
  }

  /** Every field with the requested name has a single-field branch. */
  lemma FieldBranchesComplete(nts: seq<Catalog.NoteType>, field: string, argIdx: nat)
    ensures var branches := FieldBranches(FieldMap(nts, field), argIdx);
      forall i, j :: 0 <= i < |nts| && 0 <= j < |nts[i].fields|
        && EqIgnoreAsciiCase(nts[i].fields[j].name, field)
        ==> FieldBranch((nts[i].id, nts[i].fields[j].ord), argIdx) in branches
  {
    var fieldMap := FieldMap(nts, field);
    var branches := FieldBranches(fieldMap, argIdx);
    forall i, j | 0 <= i < |nts| && 0 <= j < |nts[i].fields| && EqIgnoreAsciiCase(nts[i].fields[j].name, field)
      ensures FieldBranch((nts[i].id, nts[i].fields[j].ord), argIdx) in branches
    {
      var p := (nts[i].id, nts[i].fields[j].ord);
      assert p in fieldMap;
      var k :| 0 <= k < |fieldMap| && fieldMap[k] == p;
      assert branches[k] == FieldBranch(p, argIdx);
    }
  }


  /** Duplicate search tests the note type and the checksum of the stripped
      text, compares the first field with the raw text it binds, and leaves its
      clause unclosed; texts that strip to the same plain text give the same SQL. */
  lemma DupesLeaf(env: Catalog.Env, ntid: ObjId, t1: string, t2: string)
    requires env.stripHtmlPreservingImageFilenames(t1) == env.stripHtmlPreservingImageFilenames(t2)
    ensures var f1 := WriteDupes(env, ntid, t1);
      var f2 := WriteDupes(env, ntid, t2);
      var csum := env.fieldChecksum(env.stripHtmlPreservingImageFilenames(t1));
      && f1.sql == "(n.mid = " + IntToString(ntid) + " and n.csum = " + IntToString(csum)
                   + " and field_at_index(n.flds, 0) = ?"
      && f1.sql == f2.sql
      && f1.args == [t1]
      && f1.sql[|f1.sql| - 3..] == "= ?"
  {
  }

  /** Which storage failures abort which leaves, and that no other leaf fails. */
  lemma StorageFailures(env: Catalog.Env, leaf: SearchNode, base: nat)
    ensures var r := LeafFragment(env, leaf, base);
      var s := env.storage;
      && ((leaf.Rated? || leaf.State? || leaf.Property?) && s.timingToday.Err? ==> r == Err(s.timingToday.error))
      && (((leaf.SingleField? || leaf.NoteType? || (leaf.CardTemplate? && leaf.template.Name?))
             && s.allNoteTypes.Err?) ==> r == Err(s.allNoteTypes.error))
      && (leaf.Deck? && leaf.deck != "*" && leaf.deck != "filtered" && s.allDecks.Err? ==> r == Err(s.allDecks.error))
      && (r.Err? ==> leaf.Rated? || leaf.State? || leaf.Property? || leaf.SingleField? || leaf.NoteType?
                     || (leaf.CardTemplate? && leaf.template.Name?)
                     || (leaf.Deck? && leaf.deck != "*" && leaf.deck != "filtered"))
  {
  }
}

=== FILE: leaves.dfy ===
/** The leaf writers of the searcher: for each kind of `SearchNode`, the SQL
    predicate text it appends and the arguments it binds, as a `Fragment`.
    Only the single-field writer needs to know how many arguments were bound
    before it (`base`), because it refers to its own argument by number. */
module Leaves {
  import opened Results
  import opened Text
  import opened IdList
  import opened SearchTypes
  import opened Context
  import Catalog

  function Min(a: int, b: int): int {
    if a <= b then a else b
  }

  /** A queue number as the searcher writes it (`CardQueue::X as u8`). */
  function Queue(q: Catalog.CardQueue): string {
    IntToString(Catalog.QueueAsU8(q))
  }

  // ---------------------------------------------------------------- text

  /** Unqualified text is searched for as a substring of the sort field and of
      all fields, so it is bound twice, wrapped in `%`. */
  function WriteUnqualified(text: string): Fragment {
    var wrapped := "%" + text + "%";
    Fragment("(n.sfld like ? escape '\\' or n.flds like ? escape '\\')", [wrapped, wrapped])
  }

  /** Tags are stored space-separated with a space at each end; `*` in the
      search becomes the SQL wildcard `%`. */
  function WriteTag(text: string): Fragment {
    if text == "none" then Fragment("n.tags = ''", [])
    else Fragment("n.tags like ?", [" %" + ReplaceChar(text, '*', '%') + "% "])
  }

  // ---------------------------------------------------------- scheduling

  /** The review-log id after which reviews count: `min(days, 31)` days
      before the next day boundary. */
  function RatedCutoff(nextDayAt: int, days: U32): (cutoff: int)
    ensures nextDayAt - 86_400 * 31 <= cutoff <= nextDayAt
    ensures days <= 31 ==> nextDayAt - cutoff == 86_400 * days
    ensures days >= 31 ==> nextDayAt - cutoff == 86_400 * 31
  {
    nextDayAt - 86_400 * Min(days, 31)
  }

  function WriteRated(env: Catalog.Env, days: U32, ease: Option<U8>): Result<Fragment> {
    var timing :- env.storage.timingToday;
    var head := "c.id in (select cid from revlog where id>" + IntToString(RatedCutoff(timing.nextDayAt, days));
    var tail := match ease
      case Some(e) => "and ease=" + IntToString(e) + ")"
      case None => ")";
    Ok(Fragment(head + tail, []))
  }

  function WriteProp(env: Catalog.Env, op: string, kind: PropertyKind): Result<Fragment> {
    var timing :- env.storage.timingToday;
    var text := match kind
      case Due(days) =>
        "(c.queue in (" + Queue(Catalog.Review) + "," + Queue(Catalog.DayLearn) + ") and due " + op + " "
        + IntToString(days + timing.daysElapsed) + ")"
      case Interval(ivl) => "ivl " + op + " " + IntToString(ivl)
      case Reps(reps) => "reps " + op + " " + IntToString(reps)
      case Lapses(lapses) => "lapses " + op + " " + IntToString(lapses)
      case Ease(milli) => "ease " + op + " " + IntToString(milli);
    Ok(Fragment(text, []))
  }

  function WriteState(env: Catalog.Env, state: StateKind): Result<Fragment> {
    var timing :- env.storage.timingToday;
    var text := match state
      case New => "c.queue = " + Queue(Catalog.New)
      case Review => "c.queue = " + Queue(Catalog.Review)
      case Learning => "c.queue in (" + Queue(Catalog.Learn) + "," + Queue(Catalog.DayLearn) + ")"
      case Buried => "c.queue in (" + Queue(Catalog.SchedBuried) + "," + Queue(Catalog.UserBuried) + ")"
      case Suspended => "c.queue = " + Queue(Catalog.Suspended)
      case Due =>
        "\n(c.queue in (" + Queue(Catalog.Review) + "," + Queue(Catalog.DayLearn) + ") and c.due <= "
        + IntToString(timing.daysElapsed) + ") or\n(c.queue = " + Queue(Catalog.Learn) + " and c.due <= "
        + IntToString(timing.nextDayAt) + ")";
    Ok(Fragment(text, []))
  }

  // --------------------------------------------------------------- decks

  /** The decks for `deck:current`: the current deck, then its children. */
  function CurrentDeckIds(env: Catalog.Env, allDecks: seq<Catalog.Deck>): (r: Result<seq<ObjId>>)
    ensures env.storage.allConfig.Err? ==> r == Err(env.storage.allConfig.error)
    ensures env.storage.allConfig.Ok? ==>
      var current := env.storage.allConfig.value.currentDeckId;
      && (r.Err? <==> forall i :: 0 <= i < |allDecks| ==> allDecks[i].id != current)
      && (r.Err? ==> r.error == InvalidInput("invalid current deck"))
      && (r.Ok? ==> exists i :: 0 <= i < |allDecks| && allDecks[i].id == current
                     && r.value == [current] + env.childIds(allDecks, allDecks[i].name))
  {
    var config :- env.storage.allConfig;
    var current := Catalog.GetDeck(allDecks, config.currentDeckId);
    if current.None? then Err(InvalidInput("invalid current deck"))
    else Ok([config.currentDeckId] + env.childIds(allDecks, current.value.name))
  }

  /** Every deck of `decks` whose name matches `pattern`, each followed by its
      children (looked up in the whole list `allDecks`). */
  function MatchingDeckIds(env: Catalog.Env, allDecks: seq<Catalog.Deck>, decks: seq<Catalog.Deck>, pattern: string): (r: seq<ObjId>)
    ensures forall id :: id in r <==>
      exists i :: 0 <= i < |decks| && env.matchesWildcard(decks[i].name, pattern)
        && (id == decks[i].id || id in env.childIds(allDecks, decks[i].name))
  {
    if |decks| == 0 then []
    else
      var here := if env.matchesWildcard(decks[0].name, pattern)
        then [decks[0].id] + env.childIds(allDecks, decks[0].name) else [];
      var rest := MatchingDeckIds(env, allDecks, decks[1..], pattern);
      assert forall id :: id in rest <==>
        exists i :: 1 <= i < |decks| && env.matchesWildcard(decks[i].name, pattern)
          && (id == decks[i].id || id in env.childIds(allDecks, decks[i].name));
      here + rest
  }

  function WriteDeck(env: Catalog.Env, deck: string): Result<Fragment> {
    if deck == "*" then Ok(Fragment("true", []))
    else if deck == "filtered" then Ok(Fragment("c.odid > 0", []))
    else
      var allDecks :- env.storage.allDecks;
      var dids :- if deck == "current" then CurrentDeckIds(env, allDecks)
                  else Ok(MatchingDeckIds(env, allDecks, allDecks, deck));
      Ok(Fragment("c.did in " + IdsToString(dids), []))
  }

  // ---------------------------------------------------------- note types

  datatype Part = Fields | Templates

  function Items(nt: Catalog.NoteType, part: Part): seq<Catalog.NamedOrd> {
    match part
    case Fields => nt.fields
    case Templates => nt.templates
  }

  /** `(note type id, ordinal)` of each field or template of `items` whose name `keep` accepts. */
  function CollectIn(id: ObjId, items: seq<Catalog.NamedOrd>, keep: string -> bool): (r: seq<(ObjId, nat)>)
    ensures forall p :: p in r <==> exists j :: 0 <= j < |items| && keep(items[j].name) && p == (id, items[j].ord)
  {
    if |items| == 0 then []
    else
      var rest := CollectIn(id, items[1..], keep);
      assert forall p :: p in rest <==> exists j :: 1 <= j < |items| && keep(items[j].name) && p == (id, items[j].ord);
      (if keep(items[0].name) then [(id, items[0].ord)] else []) + rest
  }

  /** `p` is the `(id, ordinal)` of an item of `nt` whose name `keep` accepts. */
  predicate CollectedFrom(nt: Catalog.NoteType, part: Part, keep: string -> bool, p: (ObjId, nat)) {
    exists j :: 0 <= j < |Items(nt, part)| && keep(Items(nt, part)[j].name) && p == (nt.id, Items(nt, part)[j].ord)
  }

  /** The nested loop over note types and their fields or templates, in catalog order. */
  function Collect(nts: seq<Catalog.NoteType>, part: Part, keep: string -> bool): (r: seq<(ObjId, nat)>)
    ensures forall p :: p in r <==> exists i :: 0 <= i < |nts| && CollectedFrom(nts[i], part, keep, p)
  {
    if |nts| == 0 then []
    else
      var here := CollectIn(nts[0].id, Items(nts[0], part), keep);
      var rest := Collect(nts[1..], part, keep);
      assert forall p :: p in here <==> CollectedFrom(nts[0], part, keep, p);
      assert forall p :: p in rest <==> exists i :: 1 <= i < |nts| && CollectedFrom(nts[i], part, keep, p);
      here + rest
  }

  function TemplateBranch(idOrd: (ObjId, nat)): string {
    "(n.mid = " + IntToString(idOrd.0) + " and c.ord = " + IntToString(idOrd.1) + ")"
  }

  /** The `(note type id, template ordinal)` pairs whose template name matches `pattern`. */
  function TemplateMatches(env: Catalog.Env, nts: seq<Catalog.NoteType>, pattern: string): (r: seq<(ObjId, nat)>)
    ensures forall p :: p in r <==>
      exists i, j :: 0 <= i < |nts| && 0 <= j < |nts[i].templates|
        && env.matchesWildcard(nts[i].templates[j].name, pattern) && p == (nts[i].id, nts[i].templates[j].ord)
  {
    var r := Collect(nts, Templates, tmplName => env.matchesWildcard(tmplName, pattern));
    assert forall i :: 0 <= i < |nts| ==> Items(nts[i], Templates) == nts[i].templates;
    r
  }

  function TemplateBranches(idOrds: seq<(ObjId, nat)>): (r: seq<string>)
    ensures |r| == |idOrds|
    ensures forall k :: 0 <= k < |idOrds| ==> r[k] == TemplateBranch(idOrds[k])
  {
    seq(|idOrds|, k requires 0 <= k < |idOrds| => TemplateBranch(idOrds[k]))
  }

  function WriteTemplate(env: Catalog.Env, template: TemplateKind): Result<Fragment> {
    match template
    case Ordinal(n) => Ok(Fragment("c.ord = " + IntToString(n), []))
    case Name(name) =>
      var noteTypes :- env.storage.allNoteTypes;
      var idOrds := TemplateMatches(env, noteTypes, name);
      if |idOrds| == 0 then Ok(Fragment("false", []))
      else Ok(Fragment("(" + Join(TemplateBranches(idOrds), ",") + ")", []))
  }

  /** Ids of the note types whose name matches `pattern`, in catalog order. */
  function NoteTypeIds(env: Catalog.Env, nts: seq<Catalog.NoteType>, pattern: string): (r: seq<ObjId>)
    ensures |r| <= |nts|
    ensures forall id :: id in r <==>
      exists i :: 0 <= i < |nts| && env.matchesWildcard(nts[i].name, pattern) && nts[i].id == id
  {
    if |nts| == 0 then []
    else
      var rest := NoteTypeIds(env, nts[1..], pattern);
      assert forall id :: id in rest <==>
        exists i :: 1 <= i < |nts| && env.matchesWildcard(nts[i].name, pattern) && nts[i].id == id;
      (if env.matchesWildcard(nts[0].name, pattern) then [nts[0].id] else []) + rest
  }

  function WriteNoteType(env: Catalog.Env, name: string): Result<Fragment> {
    var noteTypes :- env.storage.allNoteTypes;
    Ok(Fragment("n.mid in " + IdsToString(NoteTypeIds(env, noteTypes, name)), []))
  }

  /** One alternative of a single-field search: the field at `ord` of notes of
      type `ntid`, compared with the argument numbered `argIdx`. */
  function FieldBranch(ntidOrd: (ObjId, nat), argIdx: nat): (b: string)
    ensures var reference := "?" + IntToString(argIdx) + ")";
      |b| > |reference| && b[|b| - |reference|..] == reference
  {
    "(n.mid = " + IntToString(ntidOrd.0) + " and field_at_index(n.flds, " + IntToString(ntidOrd.1)
    + ") like ?" + IntToString(argIdx) + ")"
  }

  function FieldBranches(fieldMap: seq<(ObjId, nat)>, argIdx: nat): (r: seq<string>)
    ensures |r| == |fieldMap|
    ensures forall k :: 0 <= k < |fieldMap| ==> r[k] == FieldBranch(fieldMap[k], argIdx)
  {
    seq(|fieldMap|, k requires 0 <= k < |fieldMap| => FieldBranch(fieldMap[k], argIdx))
  }

  /** The `(note type id, field ordinal)` pairs whose field name equals `fieldName`, ignoring ASCII case. */
  function FieldMap(nts: seq<Catalog.NoteType>, fieldName: string): (r: seq<(ObjId, nat)>)
    ensures forall p :: p in r <==>
      exists i, j :: 0 <= i < |nts| && 0 <= j < |nts[i].fields|
        && EqIgnoreAsciiCase(nts[i].fields[j].name, fieldName) && p == (nts[i].id, nts[i].fields[j].ord)
  {
    var r := Collect(nts, Fields, name => EqIgnoreAsciiCase(name, fieldName));
    assert forall i :: 0 <= i < |nts| ==> Items(nts[i], Fields) == nts[i].fields;
    r
  }

  /** The value is bound first; the alternatives then refer to it by its
      1-based number, which is the argument count after the push. */
  function WriteSingleField(env: Catalog.Env, fieldName: string, val: string, base: nat): Result<Fragment> {
    var noteTypes :- env.storage.allNoteTypes;
    var fieldMap := FieldMap(noteTypes, fieldName);
    if |fieldMap| == 0 then Ok(Fragment("false", []))
    else
      var argIdx := base + 1;
      Ok(Fragment("(" + Concat(FieldBranches(fieldMap, argIdx)) + ")", [val]))
  }

  /** Duplicate search: notes of type `ntid` whose checksum equals that of the
      stripped text and whose first field equals the text. */
  function WriteDupes(env: Catalog.Env, ntid: ObjId, text: string): Fragment {
    var csum := env.fieldChecksum(env.stripHtmlPreservingImageFilenames(text));
    Fragment("(n.mid = " + IntToString(ntid) + " and n.csum = " + IntToString(csum)
             + " and field_at_index(n.flds, 0) = ?", [text])
  }

  // ------------------------------------------------------------ dispatch

  /** `write_search_node_to_sql`: what one leaf appends, written after `base`
      arguments have been bound. */
  function LeafFragment(env: Catalog.Env, leaf: SearchNode, base: nat): Result<Fragment> {
    match leaf
    case UnqualifiedText(text) => Ok(WriteUnqualified(text))
    case SingleField(field, text) => WriteSingleField(env, field, text, base)
    case AddedInDays(days) => Ok(Fragment("c.id > " + IntToString(days), []))
    case CardTemplate(template) => WriteTemplate(env, template)
    case Deck(deck) => WriteDeck(env, deck)
    case NoteTypeId(ntid) => Ok(Fragment("n.mid = " + IntToString(ntid), []))
    case NoteType(notetype) => WriteNoteType(env, notetype)
    case Rated(days, ease) => WriteRated(env, days, ease)
    case Tag(tag) => Ok(WriteTag(tag))
    case Duplicates(ntid, text) => Ok(WriteDupes(env, ntid, text))
    case State(state) => WriteState(env, state)
    case Flag(flag) => Ok(Fragment("(c.flags & 7) == " + IntToString(flag), []))
    case NoteIds(nids) => Ok(Fragment("n.id in (" + nids + ")", []))
    case CardIds(cids) => Ok(Fragment("c.id in (" + cids + ")", []))
    case Property(op, kind) => WriteProp(env, op, kind)
  }

  /** Writes one leaf into the context: its fragment is appended, or its error
      is returned and nothing is written. */
  function WriteSearchNode(env: Catalog.Env, leaf: SearchNode, ctx: SearchContext): (r: Result<SearchContext>)
    ensures r.Ok? ==> Extends(ctx, r.value)
    ensures r.Err? <==> LeafFragment(env, leaf, |ctx.args|).Err?
    ensures Delta(ctx, r) == LeafFragment(env, leaf, |ctx.args|)
  {
    var f :- LeafFragment(env, leaf, |ctx.args|);
    Ok(ctx.Then(f.sql, f.args))
  }
}

=== FILE: results.dfy ===
/** Failure-compatible wrappers used throughout the model of the search compiler. */
module Results {

  /** An optional value, as Rust's `Option<T>`. */
  datatype Option<+T> = None | Some(value: T)

  /** The error kinds the compiler can surface. `InvalidInput` is raised by the
      compiler itself; `DbError` stands for any failure reported by storage. */
  datatype AnkiError = InvalidInput(info: string) | DbError(info: string)

  /** Rust's `Result<T, AnkiError>`, usable with `:-` so that `?` reads the same. */
  datatype Result<+T> = Ok(value: T) | Err(error: AnkiError) {

    predicate IsFailure() {
      Err?
    }

    function PropagateFailure<U>(): Result<U>
      requires Err?
    {
      Err(error)
    }

    function Extract(): T
      requires Ok?
    {
      value
    }
  }
}

=== FILE: search_types.dfy ===
/** The search expression tree handed to the compiler by the query parser
    (`Node`, `SearchNode`, `TemplateKind`, `PropertyKind`, `StateKind`), with
    the integer widths of their payloads. */
module SearchTypes {
  import opened Results

  type U8 = x: int | 0 <= x < 0x100
  type U16 = x: int | 0 <= x < 0x1_0000
  type U32 = x: int | 0 <= x < 0x1_0000_0000
  type I32 = x: int | -0x8000_0000 <= x < 0x8000_0000
  type I64 = x: int | -0x8000_0000_0000_0000 <= x < 0x8000_0000_0000_0000

  /** Ids of notes, cards, decks and note types. */
  type ObjId = I64

  /** A node of the tree. Inside a `Group`, connectors and operands are expected
      to alternate; the parser guarantees it and the compiler does not check it. */
  datatype Node =
    | And
    | Or
    | Not(node: Node)
    | Group(nodes: seq<Node>)
    | Search(search: SearchNode)

  datatype TemplateKind = Ordinal(n: U16) | Name(name: string)

  /** `Ease` holds the ease already scaled by 1000 and truncated to `u32`. */
  datatype PropertyKind =
    | Due(days: I32)
    | Interval(ivl: U32)
    | Reps(reps: U32)
    | Lapses(lapses: U32)
    | Ease(milli: U32)

  datatype StateKind = New | Review | Learning | Buried | Suspended | Due

  datatype SearchNode =
    | UnqualifiedText(text: string)
    | SingleField(field: string, text: string)
    | AddedInDays(days: U32)
    | CardTemplate(template: TemplateKind)
    | Deck(deck: string)
    | NoteTypeId(ntid: ObjId)
    | NoteType(notetype: string)
    | Rated(days: U32, ease: Option<U8>)
    | Tag(tag: string)
    | Duplicates(noteTypeId: ObjId, text: string)
    | State(state: StateKind)
    | Flag(flag: U8)
    | NoteIds(nids: string)
    | CardIds(cids: string)
    | Property(operator: string, kind: PropertyKind)
}

=== FILE: searcher.dfy ===
/** The tree walker: `node_to_sql` and `write_node_to_sql`. It writes the tree
    left to right, exactly as it is structured, into one SQL string and one
    argument list.

    The walker is written once over an arbitrary leaf writer (`Walk`), and
    `WriteNode` is that walker with `WriteSearchNode` at the leaves. The facts
    about the tree's shape are proved for every leaf writer that only appends
    and looks at nothing but the number of bound arguments; `LeafContract`
    shows that the real leaf writer is such a writer. */
module Searcher {
  import opened Results
  import opened SearchTypes
  import opened Context
  import opened Leaves
  import opened LeafFacts
  import Catalog

  /** Writes one leaf into a context, or fails. */
  type LeafWriter = (SearchNode, SearchContext) -> Result<SearchContext>

  /** Every successful write only appends. */
  ghost predicate AppendsOnly(leaf: LeafWriter) {
    forall s: SearchNode, c: SearchContext :: leaf(s, c).Ok? ==> Extends(c, leaf(s, c).value)
  }

  /** What a leaf appends depends on the context only through its argument count. */
  ghost predicate Local(leaf: LeafWriter) {
    forall s: SearchNode, c1: SearchContext, c2: SearchContext ::
      |c1.args| == |c2.args| ==> Delta(c1, leaf(s, c1)) == Delta(c2, leaf(s, c2))
  }

  ghost predicate WellBehaved(leaf: LeafWriter) {
    AppendsOnly(leaf) && Local(leaf)
  }

  /** `write_node_to_sql`, with the leaf writer as a parameter. */
  function Walk(leaf: LeafWriter, node: Node, ctx: SearchContext): Result<SearchContext>
    decreases node
  {
    match node
    case And => Ok(ctx.Then(" and ", []))
    case Or => Ok(ctx.Then(" or ", []))
    case Not(inner) => Walk(leaf, inner, ctx.Then("not ", []))
    case Group(nodes) =>
      var inner :- WalkAll(leaf, nodes, ctx.Then("(", []));
      Ok(inner.Then(")", []))
    case Search(search) => leaf(search, ctx)
  }

  /** The loop over a group's children; the first failure ends it. */
  function WalkAll(leaf: LeafWriter, nodes: seq<Node>, ctx: SearchContext): Result<SearchContext>
    decreases nodes
  {
    if |nodes| == 0 then Ok(ctx)
    else
      var next :- Walk(leaf, nodes[0], ctx);
      WalkAll(leaf, nodes[1..], next)
  }

  /** The leaf writer of the search: `write_search_node_to_sql`. */
  function LeafOf(env: Catalog.Env): LeafWriter {
    (s: SearchNode, c: SearchContext) => WriteSearchNode(env, s, c)
  }

  /** The real leaf writer only appends, and only the argument count matters to it. */
  lemma LeafContract(env: Catalog.Env)
    ensures WellBehaved(LeafOf(env))
  {
    forall s: SearchNode, c1: SearchContext, c2: SearchContext | |c1.args| == |c2.args|
      ensures Delta(c1, LeafOf(env)(s, c1)) == Delta(c2, LeafOf(env)(s, c2))
    {
      assert Delta(c1, WriteSearchNode(env, s, c1)) == LeafFragment(env, s, |c1.args|);
    }
  }

  lemma {:induction false} WalkAppends(leaf: LeafWriter, node: Node, ctx: SearchContext)
    requires AppendsOnly(leaf)
    ensures Walk(leaf, node, ctx).Ok? ==> Extends(ctx, Walk(leaf, node, ctx).value)
    decreases node
  {
    match node
    case And =>
    case Or =>
    case Not(inner) =>
      WalkAppends(leaf, inner, ctx.Then("not ", []));
    case Group(nodes) =>
      var d := ctx.Then("(", []);
      WalkAllAppends(leaf, nodes, d);
      var w := WalkAll(leaf, nodes, d);
      if w.Ok? {
        assert Extends(w.value, w.value.Then(")", []));
      }
    case Search(search) =>
  }

  lemma {:induction false} WalkAllAppends(leaf: LeafWriter, nodes: seq<Node>, ctx: SearchContext)
    requires AppendsOnly(leaf)
    ensures WalkAll(leaf, nodes, ctx).Ok? ==> Extends(ctx, WalkAll(leaf, nodes, ctx).value)
    decreases nodes
  {
    if |nodes| > 0 {
      WalkAppends(leaf, nodes[0], ctx);
      var w := Walk(leaf, nodes[0], ctx);
      if w.Ok? {
        WalkAllAppends(leaf, nodes[1..], w.value);
      }
    }
  }

  /** `write_node_to_sql`: appends the node's text and arguments, or fails. */
  function WriteNode(env: Catalog.Env, node: Node, ctx: SearchContext): (r: Result<SearchContext>)
    ensures r.Ok? ==> Extends(ctx, r.value)
  {
    LeafContract(env);
    WalkAppends(LeafOf(env), node, ctx);
    Walk(LeafOf(env), node, ctx)
  }

  /** `node_to_sql`: the SQL text and arguments of a whole tree. */
  function NodeToSql(env: Catalog.Env, node: Node): Result<(string, seq<string>)> {
    var ctx :- WriteNode(env, node, SearchContext("", []));
    Ok((ctx.sql, ctx.args))
  }

  // ------------------------------------------------------------- locality

  /** What `node` appends when written after `base` arguments have been bound. */
  function FragmentOf(leaf: LeafWriter, node: Node, base: nat): Result<Fragment> {
    Delta(Blank(base), Walk(leaf, node, Blank(base)))
  }

  /** Writing a node looks at the context only through the number of bound
      arguments: the text before it is never read and never changed. */
  lemma {:induction false} Locality(leaf: LeafWriter, node: Node, c1: SearchContext, c2: SearchContext)
    requires WellBehaved(leaf)
    requires |c1.args| == |c2.args|
    ensures Delta(c1, Walk(leaf, node, c1)) == Delta(c2, Walk(leaf, node, c2))
    decreases node
  {
    match node
    case And =>
    case Or =>
    case Not(inner) =>
      var d1 := c1.Then("not ", []);
      var d2 := c2.Then("not ", []);
      Locality(leaf, inner, d1, d2);
      WalkAppends(leaf, inner, d1);
      WalkAppends(leaf, inner, d2);
      DeltaChain(c1, d1, Walk(leaf, inner, d1));
      DeltaChain(c2, d2, Walk(leaf, inner, d2));
    case Group(nodes) =>
      var d1 := c1.Then("(", []);
      var d2 := c2.Then("(", []);
      LocalityNodes(leaf, nodes, d1, d2);
      WalkAllAppends(leaf, nodes, d1);
      WalkAllAppends(leaf, nodes, d2);
      var w1 := WalkAll(leaf, nodes, d1);
      var w2 := WalkAll(leaf, nodes, d2);
      DeltaChain(c1, d1, w1);
      DeltaChain(c2, d2, w2);
      if w1.Ok? {
        DeltaChain(c1, w1.value, Ok(w1.value.Then(")", [])));
        DeltaChain(c2, w2.value, Ok(w2.value.Then(")", [])));
      }
    case Search(search) =>
  }

  lemma {:induction false} LocalityNodes(leaf: LeafWriter, nodes: seq<Node>, c1: SearchContext, c2: SearchContext)
    requires WellBehaved(leaf)
    requires |c1.args| == |c2.args|
    ensures Delta(c1, WalkAll(leaf, nodes, c1)) == Delta(c2, WalkAll(leaf, nodes, c2))
    decreases nodes
  {
    if |nodes| > 0 {
      Locality(leaf, nodes[0], c1, c2);
      WalkAppends(leaf, nodes[0], c1);
      WalkAppends(leaf, nodes[0], c2);
      var w1 := Walk(leaf, nodes[0], c1);
      var w2 := Walk(leaf, nodes[0], c2);
      if w1.Ok? {
        assert w2.Ok?;
        assert |w1.value.args| == |c1.args| + |w1.value.args[|c1.args|..]|;
        assert |w2.value.args| == |c2.args| + |w2.value.args[|c2.args|..]|;
        LocalityNodes(leaf, nodes[1..], w1.value, w2.value);
        WalkAllAppends(leaf, nodes[1..], w1.value);
        WalkAllAppends(leaf, nodes[1..], w2.value);
        var r1 := WalkAll(leaf, nodes[1..], w1.value);
        var r2 := WalkAll(leaf, nodes[1..], w2.value);
        assert WalkAll(leaf, nodes, c1) == r1;
        assert WalkAll(leaf, nodes, c2) == r2;
        DeltaChain(c1, w1.value, r1);
        DeltaChain(c2, w2.value, r2);
      } else {
        assert w2.Err? && w1.error == w2.error;
      }
    } else {
      assert c1.sql[|c1.sql|..] == c2.sql[|c2.sql|..] && c1.args[|c1.args|..] == c2.args[|c2.args|..];
    }
  }

  /** Writing a node into any context appends exactly its fragment at that
      context's argument count. */
  lemma Splice(leaf: LeafWriter, node: Node, ctx: SearchContext)
    requires WellBehaved(leaf)
    ensures Delta(ctx, Walk(leaf, node, ctx)) == FragmentOf(leaf, node, |ctx.args|)
  {
    Locality(leaf, node, ctx, Blank(|ctx.args|));
  }

  /** `node_to_sql` returns the text and arguments a node appends to any
      context in which no argument has been bound yet. */
  lemma NodeToSqlAnywhere(env: Catalog.Env, node: Node, ctx: SearchContext)
    requires |ctx.args| == 0
    ensures var q := NodeToSql(env, node);
      var w := WriteNode(env, node, ctx);
      && (q.Err? <==> w.Err?)
      && (q.Err? ==> q.error == w.error)
      && (q.Ok? ==> w.value == SearchContext(ctx.sql + q.value.0, q.value.1))
  {
    var empty := SearchContext("", []);
    LeafContract(env);
    Locality(LeafOf(env), node, ctx, empty);
    var w := WriteNode(env, node, ctx);
    var e := WriteNode(env, node, empty);
    if w.Ok? {
      Reassemble(ctx, w.value);
      Reassemble(empty, e.value);
    }
  }

  /** `node_to_sql` returns exactly the node's fragment at argument count 0,
      so the fragment lemmas below describe the compiler's whole output. */
  lemma NodeToSqlFragment(env: Catalog.Env, node: Node)
    ensures NodeToSql(env, node) ==
      match FragmentOf(LeafOf(env), node, 0)
      case Err(e) => Err(e)
      case Ok(f) => Ok((f.sql, f.args))
  {
    var empty := SearchContext("", []);
    assert Blank(0) == empty;
    var w := WriteNode(env, node, empty);
    if w.Ok? {
      assert w.value.sql[0..] == w.value.sql && w.value.args[0..] == w.value.args;
    }
  }

  /** A leaf node appends exactly what its leaf writer gives. */
  lemma SearchFragment(env: Catalog.Env, search: SearchNode, base: nat)
    ensures FragmentOf(LeafOf(env), Search(search), base) == LeafFragment(env, search, base)
  {
    assert |Blank(base).args| == base;
  }

  /** The expectation recorded beside the source's tests: `added:1`, taken as
      a group around one leaf (the parser is not part of this model), compiles
      to `(c.id > 1)` with no arguments. */
  lemma AddedFixture(env: Catalog.Env)
    ensures NodeToSql(env, Group([Search(AddedInDays(1))])) == Ok(("(c.id > 1)", []))
  {
    var f := Fragment("c.id > 1", []);
    AddedLeaf(env);
    GroupOfOne(env, Search(AddedInDays(1)), f);
    assert "(" + f.sql + ")" == "(c.id > 1)";
  }

  /** `node_to_sql` of a group of one node is that node's text in parentheses. */
  lemma GroupOfOne(env: Catalog.Env, node: Node, f: Fragment)
    requires FragmentOf(LeafOf(env), node, 0) == Ok(f)
    ensures NodeToSql(env, Group([node])) == Ok(("(" + f.sql + ")", f.args))
  {
    LeafContract(env);
    SingletonGroup(LeafOf(env), node, f);
    NodeToSqlFragment(env, Group([node]));
  }

  /** `added:1` on its own writes `c.id > 1`. */
  lemma AddedLeaf(env: Catalog.Env)
    ensures FragmentOf(LeafOf(env), Search(AddedInDays(1)), 0) == Ok(Fragment("c.id > 1", []))
  {
    assert Text.NatToString(1) == "1";
    assert Text.IntToString(1) == "1";
    assert "c.id > " + "1" == "c.id > 1";
    InlineLeaves(env, AddedInDays(1), 0);
    SearchFragment(env, AddedInDays(1), 0);
  }

  /** A group of one node is that node's text in parentheses. */
  lemma SingletonGroup(leaf: LeafWriter, node: Node, f: Fragment)
    requires WellBehaved(leaf)
    requires FragmentOf(leaf, node, 0) == Ok(f)
    ensures FragmentOf(leaf, Group([node]), 0) == Ok(Fragment("(" + f.sql + ")", f.args))
  {
    ChainSingle(Fragments(leaf), node, 0);
    GroupFragment(leaf, [node], 0);
  }

  // --------------------------------------------------------- composition

  /** Reference definition of a sequence of nodes written one after another:
      each node's fragment in order, each written after the arguments of those
      before it. `frag` gives the fragment of one node at a given argument count. */
  function Chain(frag: (Node, nat) -> Result<Fragment>, nodes: seq<Node>, base: nat): Result<Fragment>
    decreases nodes
  {
    if |nodes| == 0 then Ok(Fragment("", []))
    else
      var first :- frag(nodes[0], base);
      var rest :- Chain(frag, nodes[1..], base + |first.args|);
      Ok(Fragment(first.sql + rest.sql, first.args + rest.args))
  }

  lemma ChainCons(frag: (Node, nat) -> Result<Fragment>, nodes: seq<Node>, base: nat)
    requires |nodes| > 0
    ensures Chain(frag, nodes, base) ==
      match frag(nodes[0], base)
      case Err(e) => Err(e)
      case Ok(f) =>
        match Chain(frag, nodes[1..], base + |f.args|)
        case Err(e) => Err(e)
        case Ok(g) => Ok(Fragment(f.sql + g.sql, f.args + g.args))
  {
  }

  /** `FragmentOf` as a function value, so that `Chain` can be applied to it. */
  function Fragments(leaf: LeafWriter): (Node, nat) -> Result<Fragment> {
    (node: Node, b: nat) => FragmentOf(leaf, node, b)
  }

  /** What a context gains from one step and then from a second step taken
      after it, when the first step did not fail. */
  lemma StepThen(ctx: SearchContext, w: Result<SearchContext>, rest: Result<SearchContext>, whole: Result<SearchContext>)
    requires w.Ok? ==> Extends(ctx, w.value)
    requires w.Ok? && rest.Ok? ==> Extends(w.value, rest.value)
    requires whole == (if w.Ok? then rest else Err(w.error))
    ensures Delta(ctx, whole) ==
      match Delta(ctx, w)
      case Err(e) => Err(e)
      case Ok(f) =>
        match Delta(w.value, rest)
        case Err(e) => Err(e)
        case Ok(g) => Ok(Fragment(f.sql + g.sql, f.args + g.args))
  {
    if w.Ok? {
      DeltaChain(ctx, w.value, rest);
    }
  }

  /** What a context gains when `open` is written, then a step, then `close`. */
  lemma Wrapped(c: SearchContext, open: string, close: string, w: Result<SearchContext>, whole: Result<SearchContext>)
    requires w.Ok? ==> Extends(c.Then(open, []), w.value)
    requires whole == (if w.Ok? then Ok(w.value.Then(close, [])) else Err(w.error))
    ensures Delta(c, whole) ==
      match Delta(c.Then(open, []), w)
      case Err(e) => Err(e)
      case Ok(f) => Ok(Fragment(open + f.sql + close, f.args))
  {
    var d := c.Then(open, []);
    if w.Ok? {
      var v := w.value;
      var f := Delta(d, w).value;
      Reassemble(d, v);
      var done := v.Then(close, []);
      assert done.sql == c.sql + (open + f.sql + close);
      assert done.args == c.args + f.args;
      AppendDelta(c, open + f.sql + close, f.args);
    }
  }

  /** Writing a group's children appends their fragments one after another. */
  lemma {:induction false} NodesSplice(leaf: LeafWriter, nodes: seq<Node>, ctx: SearchContext)
    requires WellBehaved(leaf)
    ensures Delta(ctx, WalkAll(leaf, nodes, ctx)) == Chain(Fragments(leaf), nodes, |ctx.args|)
    decreases nodes
  {
    if |nodes| == 0 {
      assert ctx.sql[|ctx.sql|..] == "" && ctx.args[|ctx.args|..] == [];
    } else {
      var w := Walk(leaf, nodes[0], ctx);
      var rest := if w.Ok? then WalkAll(leaf, nodes[1..], w.value) else Err(w.error);
      assert WalkAll(leaf, nodes, ctx) == rest;
      Splice(leaf, nodes[0], ctx);
      WalkAppends(leaf, nodes[0], ctx);
      if w.Ok? {
        WalkAllAppends(leaf, nodes[1..], w.value);
      }
      StepThen(ctx, w, rest, rest);
      ChainCons(Fragments(leaf), nodes, |ctx.args|);
      if w.Ok? {
        NodesSplice(leaf, nodes[1..], w.value);
        Reassemble(ctx, w.value);
        assert |w.value.args| == |ctx.args| + |Delta(ctx, w).value.args|;
      }
    }
  }

  /** `Group(children)` writes `(`, then each child's text in order, then `)`. */
  lemma GroupFragment(leaf: LeafWriter, nodes: seq<Node>, base: nat)
    requires WellBehaved(leaf)
    ensures FragmentOf(leaf, Group(nodes), base) ==
      match Chain(Fragments(leaf), nodes, base)
      case Err(e) => Err(e)
      case Ok(f) => Ok(Fragment("(" + f.sql + ")", f.args))
  {
    var c := Blank(base);
    var d := c.Then("(", []);
    var w := WalkAll(leaf, nodes, d);
    WalkAllAppends(leaf, nodes, d);
    NodesSplice(leaf, nodes, d);
    Wrapped(c, "(", ")", w, Walk(leaf, Group(nodes), c));
  }

  /** `Not(x)` writes `not ` and then exactly what `x` writes on its own: no
      parentheses are added. */
  lemma NotFragment(leaf: LeafWriter, inner: Node, base: nat)
    requires WellBehaved(leaf)
    ensures FragmentOf(leaf, Not(inner), base) ==
      match FragmentOf(leaf, inner, base)
      case Err(e) => Err(e)
      case Ok(f) => Ok(Fragment("not " + f.sql, f.args))
  {
    var c := Blank(base);
    var d := c.Then("not ", []);
    Splice(leaf, inner, d);
    WalkAppends(leaf, inner, d);
    DeltaChain(c, d, Walk(leaf, inner, d));
  }

  /** The connector text of `And` and `Or`. */
  function Connector(op: Node): string
    requires op.And? || op.Or?
  {
    if op.And? then " and " else " or "
  }

  lemma ConnectorFragment(leaf: LeafWriter, op: Node, base: nat)
    requires op.And? || op.Or?
    ensures FragmentOf(leaf, op, base) == Ok(Fragment(Connector(op), []))
  {
    assert Blank(base).args + [] == Blank(base).args;
  }

  lemma ChainSingle(frag: (Node, nat) -> Result<Fragment>, b: Node, base: nat)
    ensures Chain(frag, [b], base) == frag(b, base)
  {
    assert [b][1..] == [];
    var fb := frag(b, base);
    if fb.Ok? {
      assert Chain(frag, [], base + |fb.value.args|) == Ok(Fragment("", []));
      assert fb.value.sql + "" == fb.value.sql && fb.value.args + [] == fb.value.args;
    }
  }

  /** Three nodes whose middle one writes only the text `conn`. */
  lemma ChainBinary(frag: (Node, nat) -> Result<Fragment>, a: Node, op: Node, b: Node, base: nat, conn: string)
    requires forall n: nat :: frag(op, n) == Ok(Fragment(conn, []))
    ensures Chain(frag, [a, op, b], base) ==
      match frag(a, base)
      case Err(e) => Err(e)
      case Ok(fa) =>
        match frag(b, base + |fa.args|)
        case Err(e) => Err(e)
        case Ok(fb) => Ok(Fragment(fa.sql + conn + fb.sql, fa.args + fb.args))
  {
    var ra := frag(a, base);
    assert [a, op, b][1..] == [op, b];
    if ra.Ok? {
      var fa := ra.value;
      var n := base + |fa.args|;
      assert frag(op, n) == Ok(Fragment(conn, []));
      ChainSingle(frag, b, n);
      assert [op, b][1..] == [b];
      var rb := frag(b, n);
      var tail := Chain(frag, [op, b], n);
      if rb.Ok? {
        var fb := rb.value;
        assert tail == Ok(Fragment(conn + fb.sql, [] + fb.args));
        assert [] + fb.args == fb.args;
        assert fa.sql + (conn + fb.sql) == fa.sql + conn + fb.sql;
      } else {
        assert tail == Err(rb.error);
      }
    }
  }

  /** A group of three nodes whose middle one writes only `conn`. */
  lemma GroupOfThree(frag: (Node, nat) -> Result<Fragment>, a: Node, op: Node, b: Node, base: nat, conn: string,
                     whole: Result<Fragment>)
    requires forall n: nat :: frag(op, n) == Ok(Fragment(conn, []))
    requires whole ==
      match Chain(frag, [a, op, b], base)
      case Err(e) => Err(e)
      case Ok(f) => Ok(Fragment("(" + f.sql + ")", f.args))
    ensures whole ==
      match frag(a, base)
      case Err(e) => Err(e)
      case Ok(fa) =>
        match frag(b, base + |fa.args|)
        case Err(e) => Err(e)
        case Ok(fb) => Ok(Fragment("(" + fa.sql + conn + fb.sql + ")", fa.args + fb.args))
  {
    ChainBinary(frag, a, op, b, base, conn);
    var ra := frag(a, base);
    if ra.Ok? {
      var rb := frag(b, base + |ra.value.args|);
      if rb.Ok? {
        assert "(" + (ra.value.sql + conn + rb.value.sql) + ")" == "(" + ra.value.sql + conn + rb.value.sql + ")";
      }
    }
  }

  /** `Group([a, And, b])` is `(` + a + ` and ` + b + `)` (likewise for `Or`);
      the connector binds no argument, and `b` is written after `a`'s arguments. */
  lemma BinaryGroup(leaf: LeafWriter, a: Node, op: Node, b: Node, base: nat)
    requires WellBehaved(leaf)
    requires op.And? || op.Or?
    ensures FragmentOf(leaf, Group([a, op, b]), base) ==
      match FragmentOf(leaf, a, base)
      case Err(e) => Err(e)
      case Ok(fa) =>
        match FragmentOf(leaf, b, base + |fa.args|)
        case Err(e) => Err(e)
        case Ok(fb) => Ok(Fragment("(" + fa.sql + Connector(op) + fb.sql + ")", fa.args + fb.args))
  {
    GroupFragment(leaf, [a, op, b], base);
    forall n: nat
      ensures Fragments(leaf)(op, n) == Ok(Fragment(Connector(op), []))
    {
      ConnectorFragment(leaf, op, n);
    }
    GroupOfThree(Fragments(leaf), a, op, b, base, Connector(op), FragmentOf(leaf, Group([a, op, b]), base));
  }
}

=== FILE: text.dfy ===
/** Character and string helpers the compiler relies on: decimal rendering of
    integers (Rust's `Display` for integers), `str::replace` with a single
    character, `str::eq_ignore_ascii_case`, and joining/splitting on a separator. */
module Text {
  import opened Results

  predicate IsDigit(c: char) {
    '0' <= c <= '9'
  }

  function DigitChar(d: nat): (c: char)
    requires d < 10
    ensures IsDigit(c)
    ensures c as int - '0' as int == d
  {
    (d + '0' as int) as char
  }

  predicate AllDigits(s: string) {
    forall i :: 0 <= i < |s| ==> IsDigit(s[i])
  }

  /** Decimal digits of `n`, most significant first, without leading zeros. */
  function NatToString(n: nat): (s: string)
    ensures |s| > 0 && AllDigits(s)
    ensures n >= 10 ==> s[0] != '0'
    decreases n
  {
    if n < 10 then [DigitChar(n)] else NatToString(n / 10) + [DigitChar(n % 10)]
  }

  /** Rust's `Display` of a signed integer: a `-` sign, then the digits of the magnitude. */
  function IntToString(n: int): (s: string)
    ensures |s| > 0
    ensures forall i :: 0 <= i < |s| ==> IsDigit(s[i]) || (i == 0 && s[i] == '-')
    ensures s[0] == '-' <==> n < 0
  {
    if n < 0 then "-" + NatToString(-n) else NatToString(n)
  }

  /** The value of a string of decimal digits. */
  function DigitsValue(s: string): nat
    requires AllDigits(s)
  {
    if |s| == 0 then 0 else DigitsValue(s[..|s| - 1]) * 10 + (s[|s| - 1] as int - '0' as int)
  }

  function ParseNat(s: string): Option<nat> {
    if |s| > 0 && AllDigits(s) then Some(DigitsValue(s)) else None
  }

  /** Reads back what `IntToString` writes: an optional `-` followed by digits. */
  function ParseInt(s: string): Option<int> {
    var negative := |s| > 0 && s[0] == '-';
    var digits := if negative then ParseNat(s[1..]) else ParseNat(s);
    if digits.None? then None
    else
      var magnitude: int := digits.value;
      Some(if negative then -magnitude else magnitude)
  }

  lemma {:induction false} NatToStringValue(n: nat)
    ensures DigitsValue(NatToString(n)) == n
    decreases n
  {
    if n >= 10 {
      var s := NatToString(n);
      assert s[..|s| - 1] == NatToString(n / 10);
      NatToStringValue(n / 10);
    }
  }

  /** Rendering an integer and reading it back yields the integer again. */
  lemma IntToStringRoundTrip(n: int)
    ensures ParseInt(IntToString(n)) == Some(n)
  {
    if n < 0 {
      NatToStringValue(-n);
      assert IntToString(n)[1..] == NatToString(-n);
    } else {
      NatToStringValue(n);
    }
  }

  /** Distinct integers render as distinct strings. */
  lemma IntToStringInjective(a: int, b: int)
    ensures IntToString(a) == IntToString(b) ==> a == b
  {
    IntToStringRoundTrip(a);
    IntToStringRoundTrip(b);
  }

  /** `s.replace(from, to)` for a single replacement character. */
  function ReplaceChar(s: string, from: char, to: char): (r: string)
    ensures |r| == |s|
    ensures forall i :: 0 <= i < |s| ==> r[i] == (if s[i] == from then to else s[i])
  {
    if |s| == 0 then "" else [if s[0] == from then to else s[0]] + ReplaceChar(s[1..], from, to)
  }

  /** `char::to_ascii_lowercase`: only `A`..`Z` change. */
  function AsciiLower(c: char): char {
    if 'A' <= c <= 'Z' then (c as int + 32) as char else c
  }

  /** `str::eq_ignore_ascii_case`: equal lengths and equal after ASCII lower-casing. */
  predicate EqIgnoreAsciiCase(a: string, b: string) {
    |a| == |b| && forall i :: 0 <= i < |a| ==> AsciiLower(a[i]) == AsciiLower(b[i])
  }

  /** `parts.join(sep)`. */
  function Join(parts: seq<string>, sep: string): string {
    if |parts| == 0 then ""
    else if |parts| == 1 then parts[0]
    else parts[0] + sep + Join(parts[1..], sep)
  }

  /** Concatenation with no separator. */
  function Concat(parts: seq<string>): string {
    if |parts| == 0 then "" else parts[0] + Concat(parts[1..])
  }

  /** Splits on every occurrence of `sep`; like Rust's `str::split`, the result
      has one more piece than there are separators. */
  function Split(s: string, sep: char): (parts: seq<string>)
    ensures |parts| > 0
  {
    if |s| == 0 then [""]
    else
      var rest := Split(s[1..], sep);
      if s[0] == sep then [""] + rest else [[s[0]] + rest[0]] + rest[1..]
  }

  lemma {:induction false} SplitNoSep(s: string, sep: char)
    requires sep !in s
    ensures Split(s, sep) == [s]
  {
    if |s| > 0 {
      SplitNoSep(s[1..], sep);
      assert [s[0]] + s[1..] == s;
    }
  }

  lemma {:induction false} SplitAfterPiece(a: string, sep: char, b: string)
    requires sep !in a
    ensures Split(a + [sep] + b, sep) == [a] + Split(b, sep)
  {
    if |a| == 0 {
      assert a + [sep] + b == [sep] + b;
      assert ([sep] + b)[1..] == b;
    } else {
      assert (a + [sep] + b)[1..] == a[1..] + [sep] + b;
      SplitAfterPiece(a[1..], sep, b);
      assert [a[0]] + a[1..] == a;
    }
  }

  /** Splitting a join undoes it when no piece contains the separator. */
  lemma {:induction false} SplitJoin(parts: seq<string>, sep: char)
    requires |parts| > 0
    requires forall i :: 0 <= i < |parts| ==> sep !in parts[i]
    ensures Split(Join(parts, [sep]), sep) == parts
  {
    if |parts| == 1 {
      SplitNoSep(parts[0], sep);
    } else {
      SplitJoin(parts[1..], sep);
      SplitAfterPiece(parts[0], sep, Join(parts[1..], [sep]));
      assert [parts[0]] + parts[1..] == parts;
    }
  }
}
